=== FILE: README.md ===
# Color swipe: a Dafny model of the color-preference engine and the swipe recognizer

The application shows one color swatch at a time; the user swipes it up
(like) or down (dislike), and the next swatch is chosen to lean toward the
liked colors and away from the disliked ones. Two small, independent pieces
of logic do the work, and this project models both as pure functions over
immutable data and proves their contracts:

- **The color-preference engine** (`ColorManager` in js/colors.js), in
  `palette.dfy` (HSL triples, the derived identifier, generation, the
  hue-circular distance), `ranking.dfy` (sorting candidates by score and
  counting how many outrank a given one) and `color_manager.dfy` (the pool,
  the shown/liked/disliked histories, the three selection phases of
  `getNextColor`, `likeColor`, `dislikeColor`, `getCurrentColor`, `reset`).
  Every `Math.random()` call becomes a caller-supplied sample in [0,1): one
  `Draw` of three samples per generated color and one sample `u` per
  selection, turned into an index by `Math.floor(u * n)` as js/colors.js
  does, but in exact arithmetic (see "Left out" for where doubles can
  differ). The HSL-to-hex conversion is an uninterpreted function
  (`HexOf`) passed in by the caller. Distances and scores are `real`, which
  is exact rational arithmetic.
- **The swipe recognizer** (`SwipeHandler` in js/swipe.js), in `swipe.dfy`,
  as a transition function from (handler state, event) to (handler state,
  outcome). Events are `Bind` (`initElement`, carrying an element and the
  two callbacks), and `Start`, `Move` and `End`, which carry a plain y
  position; the outcome says whether the event was
  ignored, which hint a move shows, and how an end classifies the gesture
  and which callback it fires. Positions are `real`.
- `wrappers.dfy` holds the `Option` type used for `null`, `undefined` and
  the `-1` of `findIndex`.

Where the comments in js/colors.js and js/swipe.js, or the natural reading of
the identifiers, differ from what the code does, the model follows the code:

- The commit thresholds are strict (`delta < -100`, `delta > 100`,
  js/swipe.js:120 and 124), although `swipeThreshold` is commented as the
  "Minimum distance to trigger a swipe" (js/swipe.js:12): a displacement of
  exactly ±100 snaps back rather than committing.
- Generation floors its samples, so in exact arithmetic saturation lies in
  [40,99] and lightness in [40,79], not "40-100%" and "40-80%" as the comments
  at js/colors.js:25-26 say. (In doubles a sample at the very top of [0,1)
  can round up to 100 and 80; see "Left out".)
- `getNextColor` on an empty pool does not report exhaustion: the random
  path would show `undefined` and the preference path would throw. The
  caller (js/app.js) checks for an empty pool first, so the model states a
  non-empty pool as the precondition.
- The random paths remove the chosen color by index; the preference path
  removes the first pool color with the chosen color's hex. When two pool
  colors share a hex but differ, the color removed may not be the color
  shown: `findIndex` takes the first pool color with that hex, which is a
  different color when such a color precedes the chosen one.
  The model therefore proves that the multiset of hexes of pool and shown
  colors is preserved on every path, and that the multiset of colors is
  preserved whenever hex determines the color within the pool
  (`HexFaithful`, which an injective hex conversion guarantees).
- Nothing in the code keeps liked and disliked colors disjoint or within the
  shown colors; `likeColor` and `dislikeColor` append whatever they are given.

## Model

| member | source | states |
|---|---|---|
| Palette.UniqueId | js/colors.js:57-60 | The identifier, with JavaScript's truncating remainder, lies in [-7999, 9999] for every integer triple. |
| Palette.IdFormula | js/colors.js:57-60 | For non-negative h, s, l the identifier equals (1000 + 25h + (s*l) div 100) mod 9000 + 1000 and has four digits, in [1000, 9999]. |
| Palette.IdCollides | js/colors.js:55-59 | The identifier is not unique: two different HSL triples share the identifier 2020. |
| Palette.DrawHsl | js/colors.js:24-26 | h, s and l are the floors of 360·hu, 40 + 60·su and 40 + 40·lu for the draw's samples, so (in exact arithmetic) h lies in [0,359], s in [40,99] and l in [40,79]. |
| Palette.DrawHslOnto | js/colors.js:24-26 | Every triple in those ranges is produced by some draw, so the ranges are exact. |
| Palette.MakeColor | js/colors.js:28-32 | A generated color carries the HSL triple drawn from its samples, the hex and identifier derived from that triple, lies in the generable ranges and has a four-digit identifier. |
| Palette.GenerateColors | js/colors.js:18-37 | Exactly `count` colors, the i-th built from the i-th draw, each in the generable ranges with derived hex and identifier. |
| Palette.HueDiff | js/colors.js:75-76 | For hues in [0,360) the circular hue difference lies in [0,180] and never exceeds the plain difference. |
| Palette.Distance | js/colors.js:65-87 | For colors in the HSL gamut the weighted distance lies in [0,1]. |
| Palette.DistanceSymmetric | js/colors.js:65-87 | The distance is symmetric. |
| Palette.DistanceZeroIff | js/colors.js:76-86 | Within the gamut the distance is 0 exactly when the two HSL triples are equal. |
| Palette.HueWraps | js/colors.js:75-79 | Hues 1 and 359 are 2 degrees apart, not 358: the hue term wraps at 0/360. |
| Ranking.Insert | js/colors.js:155-156 | Inserting keeps every entry plus the new one (as a multiset), adds nothing else, and keeps a descending sequence descending. |
| Ranking.SortDescending | js/colors.js:155-156 | The sorted candidates are a permutation of the input in non-increasing score order. |
| Ranking.CountAboveSort | js/colors.js:155-156 | Sorting does not change how many candidates score strictly above any given score. |
| Ranking.RankBound | js/colors.js:155-161 | In a descending sequence at most k entries score strictly above the entry at index k. |
| ColorManager.RandomIndex | js/colors.js:95 | `Math.floor(u * n)` for a sample u in [0,1) is a valid index below n, the floor of u*n. |
| ColorManager.RandomIndexReaches | js/colors.js:116 | Every index below n is reached by the sample i/n, so every candidate can be chosen. |
| ColorManager.RemoveAt | js/colors.js:99 | Removing index i shortens the pool by one, removes exactly that color from the multiset, and shifts the later colors down. |
| ColorManager.FindHex | js/colors.js:164 | The index found holds the hex and no earlier index does; nothing is found exactly when no pool color has the hex. |
| ColorManager.InjectiveHexFaithful | js/colors.js:164 | With an injective hex conversion, colors whose hex and identifier are derived from their HSL are identified by their hex. |
| ColorManager.SumDistance | js/colors.js:133-137 | Summed distances to in-gamut colors lie between 0 and their count. |
| ColorManager.Mean | js/colors.js:137 | The mean times the count is the sum, and a sum between 0 and the count has a mean in [0,1]. |
| ColorManager.Score | js/colors.js:127-153 | For in-gamut colors the combined score 0.7*(1 - mean distance to liked) + 0.3*(mean distance to disliked) lies in [0,1]. |
| ColorManager.TopCount | js/colors.js:159 | The top-10% size is at least 1, at most the pool size, equals floor(n/10) for n >= 20 and 1 below 20. |
| ColorManager.TakeAt | js/colors.js:96-103 | Taking the color at index i shows it, removes exactly it from the pool, advances the counter and keeps pool plus shown as a multiset. |
| ColorManager.RandomPick | js/colors.js:115-121 | The random path shows the pool color at index floor(u * pool size) and the pool becomes the old pool with exactly that entry spliced out (the others keep their order), with the common effects of a selection. |
| ColorManager.PreferencePick | js/colors.js:127-171 | The preference path shows a pool color outranked by fewer than the top-10% count of candidates, and the pool becomes the old pool with its first entry of that color's hex spliced out (the others keep their order), with the common effects of a selection. |
| ColorManager.HexRemovalKeepsShown | js/colors.js:164-169 | With two pool colors sharing a hex and the second one liked, the preference pick shows the second color but removes the first, so the shown color stays in the pool. |
| ColorManager.PreferenceChoice | js/colors.js:155-161 | The entry at a rank below the top-10% count of the sorted scores is a pool color outranked by fewer than that many candidates. |
| ColorManager.PreferenceKeepsHexes | js/colors.js:163-169 | Removing the first hex match and showing the chosen color preserves the hexes of pool plus shown, and the colors themselves when the pool is hex-faithful. |
| ColorManager.GetNextColor | js/colors.js:92-108 | On a non-empty pool every call shrinks the pool by one, appends the returned pool color to shown, advances the counter, leaves liked and disliked alone, and conserves the hexes of pool plus shown, and the colors themselves when the pool is hex-faithful; in the cold start or with nothing liked it takes the color at the sampled index, otherwise fewer than the top-10% count of candidates outrank it and the pool loses its first entry with that color's hex, the rest keeping their order. |
| ColorManager.SelectColorBasedOnPreferences | js/colors.js:113-172 | With nothing liked the choice is the color at the sampled index, removed by index; otherwise fewer than the top-10% count of candidates outrank it and the first pool entry with its hex is spliced out; both with the common effects of a selection. |
| ColorManager.ColdStartIgnoresHistory | js/colors.js:94-104 | During the first five selections the chosen color and the remaining pool do not depend on liked or disliked colors. |
| ColorManager.NoLikesIgnoresDislikes | js/colors.js:115-121 | With nothing liked, disliked colors do not affect the choice. |
| ColorManager.HexFaithfulShrinks | js/colors.js:163-167 | A pool that only loses colors stays hex-faithful. |
| ColorManager.Present | js/colors.js:92-108 | A run of selections shrinks the pool by the number of calls, extends shown by as many, and conserves the hexes of pool plus shown, and the colors themselves when the pool is hex-faithful; as many calls as pool colors exhaust the pool. |
| ColorManager.LikeColor | js/colors.js:177-179 | Liking appends the color to liked and changes nothing else. |
| ColorManager.DislikeColor | js/colors.js:184-186 | Disliking appends the color to disliked and changes nothing else. |
| ColorManager.GetCurrentColor | js/colors.js:191-196 | The current color is absent exactly when nothing was shown, and otherwise is the last shown color. |
| ColorManager.CurrentAfterNext | js/colors.js:101 | After a selection the current color is the color that selection returned. |
| ColorManager.Reset | js/colors.js:201-207 | Construction and reset give a pool of 150 colors, the i-th built from the i-th draw (so in range, with derived hex and identifier, by `MakeColor`), empty liked, disliked and shown, and a counter of 0, whatever the state was before. |
| ColorManager.ScoreSingleLike | js/colors.js:132-150 | With one liked color and no dislikes the score is 0.7 times one minus the distance to the liked color. |
| ColorManager.SingleLikeRanksByDistance | js/colors.js:127-153 | With one liked color and no dislikes, the candidates that outscore a color are exactly those strictly closer to the liked color. |
| ColorManager.SingleLikeFavoursNearest | js/colors.js:127-161 | After the cold start with one like and no dislikes, fewer than the top-10% count of pool colors are closer to the liked color than the chosen one. |
| ColorManager.LikeAfterColdStart | js/colors.js:92-171 | Five random selections, a like of the third, and the sixth selection is a color still in the remaining pool, from its top 10% by score. |
| Swipe.Initial | js/swipe.js:6-11 | A new handler has no element and is not tracking a gesture. |
| Swipe.InitElement | js/swipe.js:27-30 | Binding replaces the element and both callbacks and leaves the start, current position and tracking flag as they were. |
| Swipe.TouchStart | js/swipe.js:55-68 | Without an element a start changes nothing; otherwise it sets start and current position to the event's y and starts tracking. |
| Swipe.TouchMove | js/swipe.js:77-103 | A move while not tracking or without an element changes nothing; otherwise it records y, and the hint is like iff the displacement is below -50, dislike iff above 50, and hidden otherwise. |
| Swipe.TouchEnd | js/swipe.js:108-134 | An end while not tracking or without an element changes nothing; otherwise it stops tracking and commits up iff the displacement is below -100 (firing only the up callback), down iff above 100 (firing only the down callback), and otherwise snaps back without a callback. |
| Swipe.BoundaryIsSnapback | js/swipe.js:120-131 | A displacement of exactly -100 or 100 snaps back: the thresholds are strict. |
| Swipe.EndIgnoresPosition | js/swipe.js:114 | An end uses the last recorded position, not its own. |
| Swipe.StartThenEndSnapsBack | js/swipe.js:67 | A start followed directly by an end has displacement 0 and fires no callback. |
| Swipe.RepeatedEndIgnored | js/swipe.js:109-133 | After an end a second end does nothing. |
| Swipe.HintAnnouncesCommit | js/swipe.js:96-124 | A committed swipe always agrees with the hint the preceding move showed. |
| Swipe.Run | js/swipe.js:55-134 | A run of events produces one outcome per event. |
| Swipe.OneCommitPerStart | js/swipe.js:109-133 | Over any run of events, committed swipes never outnumber the starts that began tracking (plus one if a gesture was already in progress). |

## Left out

- The HSL-to-hex conversion (js/colors.js:43-52): floating-point rounding and
  hex formatting; the model takes it as an uninterpreted function `HexOf`.
- `Math.random()`: replaced by samples in [0,1) supplied by the caller. The
  model uses exact reals and does not model IEEE-754 double rounding.
  `Math.floor(n * 0.1)` and the identifier's `s * l / 100` agree with the
  exact values for the integers involved (pool sizes up to 150, s and l up
  to 100), so `TopCount`, `UniqueId`, `InGamut` and the identifier range hold
  either way. The sample-to-integer mappings can differ at rounding
  boundaries, as the next two lines say.
- ColorManager.RandomIndex: states the exact floor of u·n; in doubles the
  product can round up to the next integer (u = 0.3333333333333333, n = 3
  gives index 1 where the exact floor is 0), which is still a valid index.
- Palette.DrawHsl: states the generable ranges in exact arithmetic; in
  doubles u = 1 − 2⁻⁵³ makes `Math.floor(40 + u*60)` 100 and
  `Math.floor(40 + u*40)` 80, still inside `InGamut`.
- The order in which `Array.prototype.sort` leaves tied scores: the model
  sorts stably, but only the rank property is stated, not which of several
  tied candidates is chosen.
- The preference bias as a frequency statement (nearer hues are chosen more
  often than under uniform choice) is statistical; the model states the
  deterministic rank guarantee behind it instead.
- js/app.js as a whole: DOM construction, buttons, timers, animations and
  the request that reports the chosen color identifier to a remote sheet.
  Its empty-pool check is the reason for `GetNextColor`'s precondition.
- The global `window.colorManager` singleton: the model passes the engine
  state explicitly.
- Event-listener registration and removal, `preventDefault`, the touch and
  mouse coordinate extraction, the CSS transform and rotation, the class
  names and the indicator text of js/swipe.js: DOM plumbing and presentation.
  The outcome values stand for them (`Ended(Snapback, _)` for clearing the
  transform, the `Hint` for the indicator).

=== FILE: color_manager.dfy ===
/** The color-preference engine of js/colors.js (class ColorManager): the
    candidate pool, the shown/liked/disliked histories, and the three-phase
    selection of the next color. Every `Math.random()` call becomes a sample
    `u` in [0,1) supplied by the caller. */
module ColorManager {
  import opened Wrappers
  import opened Palette
  import opened Ranking

  /** Colors generated by the constructor and by `reset`. */
  const PoolSize: nat := 150

  /** Calls answered by uniform random choice before preferences are used. */
  const ColdStart: nat := 5

  /** Engine state. `counter` is `currentColorIndex` of js/colors.js. */
  datatype Manager = Manager(
    pool: seq<Color>,
    liked: seq<Color>,
    disliked: seq<Color>,
    shown: seq<Color>,
    counter: nat)

  /** The state after a selection, and the color selected. */
  datatype Pick = Pick(manager: Manager, color: Color)

  predicate UnitSample(u: real) {
    0.0 <= u < 1.0
  }

  /** `Math.floor(Math.random() * n)`. */
  function RandomIndex(u: real, n: nat): (i: nat)
    requires UnitSample(u)
    requires n > 0
    ensures i < n
    ensures i as real <= u * n as real < (i + 1) as real
  {
    assert u * n as real < n as real;
    (u * n as real).Floor
  }

  /** Every index is reachable, so the choice ranges over the whole of [0, n). */
  lemma RandomIndexReaches(i: nat, n: nat)
    requires i < n
    ensures UnitSample(i as real / n as real)
    ensures RandomIndex(i as real / n as real, n) == i
  {
  }

  /** `splice(i, 1)`: drop the entry at index i. */
  function RemoveAt(s: seq<Color>, i: nat): (r: seq<Color>)
    requires i < |s|
    ensures |r| == |s| - 1
    ensures multiset(r) + multiset{s[i]} == multiset(s)
    ensures forall j :: 0 <= j < i ==> r[j] == s[j]
    ensures forall j :: i <= j < |r| ==> r[j] == s[j + 1]
  {
    assert s == s[..i] + [s[i]] + s[i + 1..];
    s[..i] + s[i + 1..]
  }

  /** `findIndex(c => c.hex === hex)`; `None` stands for -1. */
  function FindHex(pool: seq<Color>, hex: string): (r: Option<nat>)
    ensures r.Some? ==> r.value < |pool| && pool[r.value].hex == hex
    ensures r.Some? ==> forall j :: 0 <= j < r.value ==> pool[j].hex != hex
    ensures r.None? <==> forall j :: 0 <= j < |pool| ==> pool[j].hex != hex
  {
    if |pool| == 0 then None
    else if pool[0].hex == hex then Some(0)
    else
      match FindHex(pool[1..], hex)
      case None => None
      case Some(i) => Some(i + 1)
  }

  /** The hexes of a sequence of colors, in order. */
  function Hexes(s: seq<Color>): (r: seq<string>)
    ensures |r| == |s|
    ensures forall i :: 0 <= i < |s| ==> r[i] == s[i].hex
  {
    seq(|s|, i requires 0 <= i < |s| => s[i].hex)
  }

  /** Colors are equal by hex (js/colors.js identifies them by hex); when every
      pool color with a given hex is the same color, removal by hex removes
      exactly the color that was chosen. */
  predicate HexFaithful(pool: seq<Color>) {
    forall a, b :: a in pool && b in pool && a.hex == b.hex ==> a == b
  }

  /** An injective hex conversion makes any pool of derived colors hex-faithful. */
  lemma InjectiveHexFaithful(pool: seq<Color>, hexOf: HexOf)
    requires forall x, y :: hexOf(x) == hexOf(y) ==> x == y
    requires forall c :: c in pool ==> Derived(c, hexOf)
    ensures HexFaithful(pool)
  {
  }

  /** Mean distance from `c` to the colors of `cs` is SumDistance / |cs|. */
  function SumDistance(c: Color, cs: seq<Color>): (r: real)
    ensures InGamut(c.hsl) && (forall k :: 0 <= k < |cs| ==> InGamut(cs[k].hsl)) ==> 0.0 <= r <= |cs| as real
  {
    if |cs| == 0 then 0.0 else Distance(c, cs[0]) + SumDistance(c, cs[1..])
  }

  /** A sum divided by the count of its terms. */
  function Mean(sum: real, n: nat): (r: real)
    requires n > 0
    ensures 0.0 <= sum <= n as real ==> 0.0 <= r <= 1.0
    ensures r * n as real == sum
  {
    sum / n as real
  }

  /** 0.7 * (1 - mean distance to the liked colors, or 0 when none are liked)
      + 0.3 * (mean distance to the disliked colors, or 0 when none). */
  function Score(c: Color, liked: seq<Color>, disliked: seq<Color>): (r: real)
    ensures InGamut(c.hsl) && (forall k :: 0 <= k < |liked| ==> InGamut(liked[k].hsl))
              && (forall k :: 0 <= k < |disliked| ==> InGamut(disliked[k].hsl))
            ==> 0.0 <= r <= 1.0
  {
    var likeScore :=
      if |liked| > 0 then 1.0 - Mean(SumDistance(c, liked), |liked|) else 0.0;
    var dislikeScore :=
      if |disliked| > 0 then Mean(SumDistance(c, disliked), |disliked|) else 0.0;
    likeScore * 0.7 + dislikeScore * 0.3
  }

  /** Every pool candidate paired with its score, in pool order. */
  function ScoreAll(pool: seq<Color>, liked: seq<Color>, disliked: seq<Color>): (r: seq<Scored<Color>>)
    ensures |r| == |pool|
    ensures forall i :: 0 <= i < |pool| ==> r[i] == Scored(pool[i], Score(pool[i], liked, disliked))
  {
    seq(|pool|, i requires 0 <= i < |pool| => Scored(pool[i], Score(pool[i], liked, disliked)))
  }

  /** How many pool candidates score strictly higher than `c`. */
  function Outranking(m: Manager, c: Color): nat {
    CountAbove(ScoreAll(m.pool, m.liked, m.disliked), Score(c, m.liked, m.disliked))
  }

  /** `Math.max(1, Math.floor(n * 0.1))`: the size of the "top 10%". */
  function TopCount(n: nat): (k: nat)
    ensures k >= 1
    ensures n >= 1 ==> k <= n
    ensures n >= 20 ==> k == n / 10
    ensures n < 20 ==> k == 1
  {
    if n / 10 > 1 then n / 10 else 1
  }

  /** The common effect of every selection path: one color leaves the pool
      and is appended to `shown`, the counter advances, the preference
      histories are untouched, and the pool and shown colors together keep
      their hexes. */
  predicate Advances(m: Manager, p: Pick) {
    && |p.manager.pool| == |m.pool| - 1
    && p.color in m.pool
    && p.manager.shown == m.shown + [p.color]
    && multiset(p.manager.pool) <= multiset(m.pool)
    && p.manager.counter == m.counter + 1
    && p.manager.liked == m.liked
    && p.manager.disliked == m.disliked
    && multiset(Hexes(p.manager.pool + p.manager.shown)) == multiset(Hexes(m.pool + m.shown))
    && (HexFaithful(m.pool) ==> multiset(p.manager.pool + p.manager.shown) == multiset(m.pool + m.shown))
  }

  lemma HexesAppend(a: seq<Color>, b: seq<Color>)
    ensures Hexes(a + b) == Hexes(a) + Hexes(b)
  {
  }

  /** Moving the color at index i from the pool to the end of `shown`. */
  function TakeAt(m: Manager, i: nat): (p: Pick)
    requires i < |m.pool|
    ensures Advances(m, p)
    ensures p.color == m.pool[i]
    ensures p.manager.pool == m.pool[..i] + m.pool[i + 1..]
  {
    var c := m.pool[i];
    var pool' := RemoveAt(m.pool, i);
    var p := Pick(m.(pool := pool', shown := m.shown + [c], counter := m.counter + 1), c);
    assert m.pool == m.pool[..i] + [c] + m.pool[i + 1..];
    HexesAppend(m.pool[..i] + [c], m.pool[i + 1..]);
    HexesAppend(m.pool[..i], [c]);
    HexesAppend(m.pool[..i], m.pool[i + 1..]);
    HexesAppend(pool', m.shown + [c]);
    HexesAppend(m.pool, m.shown);
    HexesAppend(m.shown, [c]);
    p
  }

  /** Uniform random choice from the pool (the first two phases). */
  function RandomPick(m: Manager, u: real): (p: Pick)
    requires |m.pool| > 0 && UnitSample(u)
    ensures Advances(m, p)
    ensures p.color == m.pool[RandomIndex(u, |m.pool|)]
    ensures p.manager.pool == RemoveAt(m.pool, RandomIndex(u, |m.pool|))
  {
    TakeAt(m, RandomIndex(u, |m.pool|))
  }

  /** Preference phase: sort the scored pool, pick at random among the top
      `TopCount` entries, and remove the first pool color with the picked
      color's hex. */
  function PreferencePick(m: Manager, u: real): (p: Pick)
    requires |m.pool| > 0 && UnitSample(u)
    ensures Advances(m, p)
    ensures Outranking(m, p.color) < TopCount(|m.pool|)
    ensures FindHex(m.pool, p.color.hex).Some?
    ensures p.manager.pool == RemoveAt(m.pool, FindHex(m.pool, p.color.hex).value)
  {
    var ranked := SortDescending(ScoreAll(m.pool, m.liked, m.disliked));
    var k := RandomIndex(u, TopCount(|m.pool|));
    var c := ranked[k].item;
    PreferenceChoice(m, k);
    match FindHex(m.pool, c.hex)
    case Some(i) =>
      PreferenceKeepsHexes(m, i, c);
      Pick(m.(pool := RemoveAt(m.pool, i), shown := m.shown + [c], counter := m.counter + 1), c)
    case None =>
      assert false;
      Pick(m, c)
  }

  /** The entry at rank k < TopCount of the sorted scores is a pool color
      outranked by fewer than TopCount candidates. */
  lemma PreferenceChoice(m: Manager, k: nat)
    requires |m.pool| > 0
    requires k < TopCount(|m.pool|)
    ensures k < |m.pool|
    ensures SortDescending(ScoreAll(m.pool, m.liked, m.disliked))[k].item in m.pool
    ensures Outranking(m, SortDescending(ScoreAll(m.pool, m.liked, m.disliked))[k].item) < TopCount(|m.pool|)
  {
    var scored := ScoreAll(m.pool, m.liked, m.disliked);
    var ranked := SortDescending(scored);
    var selected := ranked[k];
    assert selected in multiset(ranked);
    assert selected in scored;
    var j :| 0 <= j < |scored| && scored[j] == selected;
    assert selected.item == m.pool[j];
    RankBound(ranked, k);
    CountAboveSort(scored, selected.score);
  }

  lemma HexesMultiset(a: seq<Color>, b: seq<Color>)
    ensures multiset(Hexes(a + b)) == multiset(Hexes(a)) + multiset(Hexes(b))
  {
    HexesAppend(a, b);
  }

  lemma HexesRemoveAt(s: seq<Color>, i: nat)
    requires i < |s|
    ensures multiset(Hexes(RemoveAt(s, i))) + multiset{s[i].hex} == multiset(Hexes(s))
  {
    assert s == s[..i] + [s[i]] + s[i + 1..];
    HexesMultiset(s[..i] + [s[i]], s[i + 1..]);
    HexesMultiset(s[..i], [s[i]]);
    HexesMultiset(s[..i], s[i + 1..]);
  }

  /** Removing the pool entry at i and showing `c` instead keeps the hexes,
      and keeps the colors too when the pool is hex-faithful. */
  lemma PreferenceKeepsHexes(m: Manager, i: nat, c: Color)
    requires i < |m.pool| && m.pool[i].hex == c.hex && c in m.pool
    ensures multiset(Hexes(RemoveAt(m.pool, i) + (m.shown + [c]))) == multiset(Hexes(m.pool + m.shown))
    ensures HexFaithful(m.pool) ==> multiset(RemoveAt(m.pool, i) + (m.shown + [c])) == multiset(m.pool + m.shown)
  {
    var r := RemoveAt(m.pool, i);
    HexesMultiset(r, m.shown + [c]);
    HexesMultiset(m.shown, [c]);
    HexesMultiset(m.pool, m.shown);
    HexesRemoveAt(m.pool, i);
    assert Hexes([c]) == [m.pool[i].hex];
    if HexFaithful(m.pool) {
      assert m.pool[i] in m.pool;
      assert m.pool[i] == c;
    }
  }

  /** `getNextColor`: random while fewer than five colors have been shown,
      otherwise `selectColorBasedOnPreferences`. The caller must not call it
      on an empty pool (js/app.js checks the pool size first). */
  function GetNextColor(m: Manager, u: real): (p: Pick)
    requires |m.pool| > 0 && UnitSample(u)
    ensures Advances(m, p)
    ensures m.counter < ColdStart || |m.liked| == 0 ==>
              var i := RandomIndex(u, |m.pool|);
              p.color == m.pool[i] && p.manager.pool == RemoveAt(m.pool, i)
    ensures m.counter >= ColdStart && |m.liked| > 0 ==>
              && Outranking(m, p.color) < TopCount(|m.pool|)
              && FindHex(m.pool, p.color.hex).Some?
              && p.manager.pool == RemoveAt(m.pool, FindHex(m.pool, p.color.hex).value)
  {
    if m.counter < ColdStart then RandomPick(m, u) else SelectColorBasedOnPreferences(m, u)
  }

  /** `selectColorBasedOnPreferences`: random while nothing is liked,
      otherwise the preference pick. */
  function SelectColorBasedOnPreferences(m: Manager, u: real): (p: Pick)
    requires |m.pool| > 0 && UnitSample(u)
    ensures Advances(m, p)
    ensures |m.liked| == 0 ==>
              var i := RandomIndex(u, |m.pool|);
              p.color == m.pool[i] && p.manager.pool == RemoveAt(m.pool, i)
    ensures |m.liked| > 0 ==>
              && Outranking(m, p.color) < TopCount(|m.pool|)
              && FindHex(m.pool, p.color.hex).Some?
              && p.manager.pool == RemoveAt(m.pool, FindHex(m.pool, p.color.hex).value)
  {
    if |m.liked| == 0 then RandomPick(m, u) else PreferencePick(m, u)
  }

  /** While the cold start lasts the choice does not depend on the liked or
      disliked colors. */
  lemma ColdStartIgnoresHistory(m: Manager, liked: seq<Color>, disliked: seq<Color>, u: real)
    requires |m.pool| > 0 && UnitSample(u)
    requires m.counter < ColdStart
    ensures GetNextColor(m.(liked := liked, disliked := disliked), u).color == GetNextColor(m, u).color
    ensures GetNextColor(m.(liked := liked, disliked := disliked), u).manager.pool == GetNextColor(m, u).manager.pool
  {
  }

  /** With nothing liked, disliked colors do not steer the choice either. */
  lemma NoLikesIgnoresDislikes(m: Manager, disliked: seq<Color>, u: real)
    requires |m.pool| > 0 && UnitSample(u)
    requires |m.liked| == 0
    ensures GetNextColor(m.(disliked := disliked), u).color == GetNextColor(m, u).color
    ensures GetNextColor(m.(disliked := disliked), u).manager.pool == GetNextColor(m, u).manager.pool
  {
  }

  /** A selection only ever shrinks the pool, so hex-faithfulness persists. */
  lemma HexFaithfulShrinks(pool: seq<Color>, pool': seq<Color>)
    requires multiset(pool') <= multiset(pool)
    ensures HexFaithful(pool) ==> HexFaithful(pool')
  {
    forall a | a in pool'
      ensures a in pool
    {
      assert a in multiset(pool');
    }
  }

  /** Successive `getNextColor` calls, one sample each. The pool and the
      shown colors partition what the pool held at the start: after as many
      calls as there were pool colors the pool is exhausted. */
  function Present(m: Manager, us: seq<real>): (r: Manager)
    requires |us| <= |m.pool|
    requires forall k :: 0 <= k < |us| ==> UnitSample(us[k])
    ensures |r.pool| == |m.pool| - |us|
    ensures |r.shown| == |m.shown| + |us| && r.shown[..|m.shown|] == m.shown
    ensures r.counter == m.counter + |us|
    ensures r.liked == m.liked && r.disliked == m.disliked
    ensures multiset(Hexes(r.pool + r.shown)) == multiset(Hexes(m.pool + m.shown))
    ensures HexFaithful(m.pool) ==> multiset(r.pool + r.shown) == multiset(m.pool + m.shown)
    decreases |us|
  {
    if |us| == 0 then
      m
    else
      var p := GetNextColor(m, us[0]);
      HexFaithfulShrinks(m.pool, p.manager.pool);
      var r := Present(p.manager, us[1..]);
      assert r.shown[..|m.shown|] == r.shown[..|p.manager.shown|][..|m.shown|];
      r
  }

  /** `likeColor`: append to the liked colors; nothing else changes. */
  function LikeColor(m: Manager, c: Color): (r: Manager)
    ensures r.liked == m.liked + [c]
    ensures r.(liked := m.liked) == m
  {
    m.(liked := m.liked + [c])
  }

  /** `dislikeColor`: append to the disliked colors; nothing else changes. */
  function DislikeColor(m: Manager, c: Color): (r: Manager)
    ensures r.disliked == m.disliked + [c]
    ensures r.(disliked := m.disliked) == m
  {
    m.(disliked := m.disliked + [c])
  }

  /** `getCurrentColor`: the most recently shown color; `None` for `null`. */
  function GetCurrentColor(m: Manager): (r: Option<Color>)
    ensures r.None? <==> |m.shown| == 0
    ensures r.Some? ==> r.value == m.shown[|m.shown| - 1]
  {
    if |m.shown| == 0 then None else Some(m.shown[|m.shown| - 1])
  }

  /** The color a selection returns is the current color afterwards. */
  lemma CurrentAfterNext(m: Manager, u: real)
    requires |m.pool| > 0 && UnitSample(u)
    ensures GetCurrentColor(GetNextColor(m, u).manager) == Some(GetNextColor(m, u).color)
  {
  }

  /** The constructor and `reset`: a freshly generated pool of 150 colors and
      empty histories, whatever the state was before. */
  method Reset(draws: seq<Draw>, hexOf: HexOf) returns (m: Manager)
    requires |draws| == PoolSize
    requires forall i :: 0 <= i < PoolSize ==> UnitDraw(draws[i])
    ensures |m.pool| == PoolSize
    ensures forall i :: 0 <= i < PoolSize ==> m.pool[i] == MakeColor(draws[i], hexOf)
    ensures m.liked == [] && m.disliked == [] && m.shown == [] && m.counter == 0
  {
    var pool := GenerateColors(PoolSize, draws, hexOf);
    m := Manager(pool, [], [], [], 0);
  }

  /** How many pool colors lie strictly closer than `d` to `target`. */
  function CountCloser(pool: seq<Color>, target: Color, d: real): (n: nat)
    ensures n <= |pool|
  {
    if |pool| == 0 then 0
    else (if Distance(pool[0], target) < d then 1 else 0) + CountCloser(pool[1..], target, d)
  }

  lemma ScoreSingleLike(x: Color, like: Color)
    ensures Score(x, [like], []) == 0.7 * (1.0 - Distance(x, like))
  {
    assert [like][1..] == [];
    assert SumDistance(x, [like]) == Distance(x, like);
    assert Mean(SumDistance(x, [like]), 1) == Distance(x, like);
  }

  /** With a single liked color and no dislikes, a higher score means a
      smaller distance to the liked color. */
  lemma {:induction false} SingleLikeRanksByDistance(pool: seq<Color>, like: Color, c: Color)
    ensures CountAbove(ScoreAll(pool, [like], []), Score(c, [like], []))
         == CountCloser(pool, like, Distance(c, like))
  {
    if |pool| > 0 {
      assert ScoreAll(pool, [like], [])[1..] == ScoreAll(pool[1..], [like], []);
      ScoreSingleLike(pool[0], like);
      ScoreSingleLike(c, like);
      SingleLikeRanksByDistance(pool[1..], like, c);
    }
  }

  /** After the cold start with one liked color and no dislikes, fewer than
      the top-10% count of pool colors are closer to the liked color than
      the color chosen. */
  lemma SingleLikeFavoursNearest(m: Manager, u: real)
    requires |m.pool| > 0 && UnitSample(u)
    requires m.counter >= ColdStart && |m.liked| == 1 && |m.disliked| == 0
    ensures CountCloser(m.pool, m.liked[0], Distance(GetNextColor(m, u).color, m.liked[0]))
            < TopCount(|m.pool|)
  {
    assert m.liked == [m.liked[0]] && m.disliked == [];
    SingleLikeRanksByDistance(m.pool, m.liked[0], GetNextColor(m, u).color);
  }

  /** Five random presentations, a like of the third, and the sixth color
      comes from the top 10% of the remaining pool by score. */
  lemma LikeAfterColdStart(m: Manager, us: seq<real>, u: real)
    requires m.counter == 0 && m.shown == [] && |m.pool| > ColdStart
    requires |us| == ColdStart && forall k :: 0 <= k < |us| ==> UnitSample(us[k])
    requires UnitSample(u)
    ensures var m5 := Present(m, us);
            var m6 := LikeColor(m5, m5.shown[2]);
            && |m6.pool| > 0
            && GetNextColor(m6, u).color in m6.pool
            && Outranking(m6, GetNextColor(m6, u).color) < TopCount(|m6.pool|)
  {
  }

  /** Removal by hex can keep the shown color in the pool: with two colors
      that share a hex and a like of the second, the preference pick shows
      the second color but removes the first, which comes earlier. */
  lemma HexRemovalKeepsShown()
    ensures var a := Color(Hsl(0, 50, 50), "#808080", 1);
            var b := Color(Hsl(180, 50, 50), "#808080", 2);
            var p := PreferencePick(Manager([a, b], [b], [], [], ColdStart), 0.0);
            && p.color == b
            && p.manager.pool == [b]
            && p.manager.shown == [b]
  {
    var a := Color(Hsl(0, 50, 50), "#808080", 1);
    var b := Color(Hsl(180, 50, 50), "#808080", 2);
    var m := Manager([a, b], [b], [], [], ColdStart);
    var p := PreferencePick(m, 0.0);
    ScoreSingleLike(a, b);
    ScoreSingleLike(b, b);
    assert Score(a, [b], []) < Score(b, [b], []);
    var scored := ScoreAll(m.pool, m.liked, m.disliked);
    assert scored[1..] == [Scored(b, Score(b, [b], []))];
    var t := Score(a, [b], []);
    assert CountAbove(scored[1..], t) == 1 + CountAbove(scored[1..][1..], t);
    assert CountAbove(scored, t) >= CountAbove(scored[1..], t);
    assert Outranking(m, a) >= 1;
    assert TopCount(|m.pool|) == 1;
    assert p.color in [a, b];
    assert p.color == b;
    assert FindHex(m.pool, b.hex) == Some(0);
  }
}

=== FILE: palette.dfy ===
/** Per-color arithmetic of the color-preference engine (js/colors.js): the
    HSL triple, the identifier derived from it, generation from random draws,
    and the hue-circular distance between two colors. */
module Palette {

  /** An HSL triple as the engine stores it: integer hue, saturation and
      lightness (generation floors every component). */
  datatype Hsl = Hsl(h: int, s: int, l: int)

  /** A candidate color: its HSL triple, the display hex derived from it and
      the integer identifier derived from it. */
  datatype Color = Color(hsl: Hsl, hex: string, id: int)

  /** The HSL-to-hex conversion is floating-point rounding plus string
      formatting; the model treats it as an uninterpreted function that the
      caller supplies. */
  type HexOf = Hsl -> string

  /** The colour space the distance is designed for: h in [0,360), s and l in [0,100]. */
  predicate InGamut(c: Hsl) {
    0 <= c.h < 360 && 0 <= c.s <= 100 && 0 <= c.l <= 100
  }

  /** The ranges generation actually produces. */
  predicate Generable(c: Hsl) {
    0 <= c.h <= 359 && 40 <= c.s <= 99 && 40 <= c.l <= 79
  }

  /** The hex and the identifier of `c` are the ones derived from its HSL triple. */
  predicate Derived(c: Color, hexOf: HexOf) {
    c.hex == hexOf(c.hsl) && c.id == UniqueId(c.hsl.h, c.hsl.s, c.hsl.l)
  }

  function Abs(x: int): (r: nat)
    ensures r == x || r == -x
  {
    if x < 0 then -x else x
  }

  function Min(a: int, b: int): (r: int)
    ensures r <= a && r <= b && (r == a || r == b)
  {
    if a <= b then a else b
  }

  /** JavaScript's `%` on integers: the remainder takes the sign of the
      dividend (Dafny's own `%` is Euclidean). */
  function JsRem(a: int, b: int): (r: int)
    requires b > 0
    ensures a >= 0 ==> 0 <= r < b
    ensures a < 0 ==> -b < r <= 0
  {
    if a >= 0 then a % b else -((-a) % b)
  }

  /** The color identifier: floor(1000 + h*9000/360 + s*l/100) % 9000 + 1000,
      with JavaScript's remainder. */
  function UniqueId(h: int, s: int, l: int): (id: int)
    ensures -7999 <= id <= 9999
  {
    var x := 1000.0 + (h * 9000) as real / 360.0 + (s * l) as real / 100.0;
    JsRem(x.Floor, 9000) + 1000
  }

  /** For non-negative components the identifier is an integer formula and
      always has four digits. It is not injective: see `IdCollides`. */
  lemma IdFormula(h: int, s: int, l: int)
    requires h >= 0 && s >= 0 && l >= 0
    ensures UniqueId(h, s, l) == (1000 + 25 * h + (s * l) / 100) % 9000 + 1000
    ensures 1000 <= UniqueId(h, s, l) <= 9999
  {
  }

  /** Two different colors can share an identifier. */
  lemma IdCollides()
    ensures Hsl(0, 40, 50) != Hsl(0, 50, 40)
    ensures UniqueId(0, 40, 50) == UniqueId(0, 50, 40) == 2020
  {
  }

  /** One color's worth of `Math.random()` samples, in the order js/colors.js
      draws them: hue, saturation, lightness. */
  datatype Draw = Draw(hu: real, su: real, lu: real)

  predicate UnitDraw(d: Draw) {
    0.0 <= d.hu < 1.0 && 0.0 <= d.su < 1.0 && 0.0 <= d.lu < 1.0
  }

  /** h = floor(360u), s = floor(40 + 60u), l = floor(40 + 40u). */
  function DrawHsl(d: Draw): (c: Hsl)
    requires UnitDraw(d)
    ensures Generable(c)
    ensures c.h as real <= d.hu * 360.0 < (c.h + 1) as real
    ensures c.s as real <= 40.0 + d.su * 60.0 < (c.s + 1) as real
    ensures c.l as real <= 40.0 + d.lu * 40.0 < (c.l + 1) as real
  {
    Hsl((d.hu * 360.0).Floor, (40.0 + d.su * 60.0).Floor, (40.0 + d.lu * 40.0).Floor)
  }

  /** Every triple in the generable ranges is produced by some draw, so the
      ranges of `DrawHsl` are exact. */
  lemma DrawHslOnto(c: Hsl)
    requires Generable(c)
    ensures UnitDraw(Draw(c.h as real / 360.0, (c.s - 40) as real / 60.0, (c.l - 40) as real / 40.0))
    ensures DrawHsl(Draw(c.h as real / 360.0, (c.s - 40) as real / 60.0, (c.l - 40) as real / 40.0)) == c
  {
  }

  /** The color built from one draw. */
  function MakeColor(d: Draw, hexOf: HexOf): (c: Color)
    requires UnitDraw(d)
    ensures c.hsl == DrawHsl(d)
    ensures Derived(c, hexOf)
    ensures Generable(c.hsl) && InGamut(c.hsl)
    ensures 1000 <= c.id <= 9999
  {
    var hsl := DrawHsl(d);
    IdFormula(hsl.h, hsl.s, hsl.l);
    Color(hsl, hexOf(hsl), UniqueId(hsl.h, hsl.s, hsl.l))
  }

  /** `count` colors, the i-th built from the i-th draw. */
  method GenerateColors(count: nat, draws: seq<Draw>, hexOf: HexOf) returns (colors: seq<Color>)
    requires |draws| == count
    requires forall i :: 0 <= i < count ==> UnitDraw(draws[i])
    ensures |colors| == count
    ensures forall i :: 0 <= i < count ==> colors[i] == MakeColor(draws[i], hexOf)
    ensures forall i :: 0 <= i < count ==>
              Generable(colors[i].hsl) && Derived(colors[i], hexOf) && 1000 <= colors[i].id <= 9999
  {
    colors := [];
    var i := 0;
    while i < count
      invariant 0 <= i <= count
      invariant |colors| == i
      invariant forall j :: 0 <= j < i ==> colors[j] == MakeColor(draws[j], hexOf)
    {
      colors := colors + [MakeColor(draws[i], hexOf)];
      i := i + 1;
    }
  }

  /** Shortest distance between two hues on the 360-degree circle. */
  function HueDiff(h1: int, h2: int): (d: int)
    ensures 0 <= h1 < 360 && 0 <= h2 < 360 ==> 0 <= d <= 180
    ensures d <= Abs(h1 - h2)
  {
    Min(Abs(h1 - h2), 360 - Abs(h1 - h2))
  }

  /** Weighted distance: hue counts 0.6, saturation 0.3, lightness 0.1, each
      component normalised by its largest possible difference. */
  function Distance(c1: Color, c2: Color): (d: real)
    ensures InGamut(c1.hsl) && InGamut(c2.hsl) ==> 0.0 <= d <= 1.0
  {
    var hDiff := HueDiff(c1.hsl.h, c2.hsl.h);
    (hDiff as real / 180.0) * 0.6
      + (Abs(c1.hsl.s - c2.hsl.s) as real / 100.0) * 0.3
      + (Abs(c1.hsl.l - c2.hsl.l) as real / 100.0) * 0.1
  }

  lemma DistanceSymmetric(c1: Color, c2: Color)
    ensures Distance(c1, c2) == Distance(c2, c1)
  {
  }

  /** Within the gamut the distance vanishes exactly on equal HSL triples;
      hex and identifier play no part. */
  lemma DistanceZeroIff(c1: Color, c2: Color)
    requires InGamut(c1.hsl) && InGamut(c2.hsl)
    ensures Distance(c1, c2) == 0.0 <==> c1.hsl == c2.hsl
  {
  }

  /** Hue wraps around at 0/360: hues 1 and 359 are 2 degrees apart. */
  lemma HueWraps()
    ensures HueDiff(1, 359) == 2
    ensures Distance(Color(Hsl(1, 50, 50), "", 0), Color(Hsl(359, 50, 50), "", 0)) == 0.6 * 2.0 / 180.0
  {
  }
}

=== FILE: ranking.dfy ===
/** Ranking candidates by score, highest first, as the preference phase of
    js/colors.js does with `Array.prototype.sort` and the comparator
    `(a, b) => b.score - a.score`. */
module Ranking {

  datatype Scored<T> = Scored(item: T, score: real)

  /** Scores never increase from left to right. */
  predicate Descending<T>(s: seq<Scored<T>>) {
    forall i, j :: 0 <= i < j < |s| ==> s[i].score >= s[j].score
  }

  /** How many entries of `s` score strictly above `t`. */
  function CountAbove<T>(s: seq<Scored<T>>, t: real): (n: nat)
    ensures n <= |s|
  {
    if |s| == 0 then 0 else (if s[0].score > t then 1 else 0) + CountAbove(s[1..], t)
  }

  /** Places `x` in front of the first entry that does not outscore it. */
  function Insert<T>(x: Scored<T>, s: seq<Scored<T>>): (r: seq<Scored<T>>)
    ensures |r| == |s| + 1
    ensures multiset(r) == multiset(s) + multiset{x}
    ensures forall y :: y in r ==> y == x || y in s
    ensures Descending(s) ==> Descending(r)
  {
    if |s| == 0 || x.score >= s[0].score then
      [x] + s
    else
      assert s == [s[0]] + s[1..];
      var rest := Insert(x, s[1..]);
      DescendingSplit(s);
      DescendingCons(s[0], rest);
      [s[0]] + rest
  }

  /** A descending sequence is its head followed by a descending tail that
      the head bounds. */
  lemma DescendingSplit<T>(s: seq<Scored<T>>)
    requires |s| > 0
    ensures Descending(s) ==> Descending(s[1..])
    ensures Descending(s) ==> forall y :: y in s[1..] ==> y.score <= s[0].score
  {
  }

  /** Putting a head no lower than every entry in front of a descending
      sequence keeps it descending. */
  lemma DescendingCons<T>(h: Scored<T>, rest: seq<Scored<T>>)
    ensures Descending(rest) && (forall y :: y in rest ==> y.score <= h.score)
            ==> Descending([h] + rest)
  {
    if Descending(rest) && (forall y :: y in rest ==> y.score <= h.score) {
      forall i, j | 0 <= i < j < |rest| + 1
        ensures ([h] + rest)[i].score >= ([h] + rest)[j].score
      {
        assert ([h] + rest)[j] == rest[j - 1];
        if i > 0 {
          assert ([h] + rest)[i] == rest[i - 1];
        }
      }
    }
  }

  /** Insertion sort, highest score first. Ties keep their input order, as a
      stable sort with that comparator does; no contract relies on it. */
  function SortDescending<T>(s: seq<Scored<T>>): (r: seq<Scored<T>>)
    ensures |r| == |s|
    ensures multiset(r) == multiset(s)
    ensures Descending(r)
  {
    if |s| == 0 then
      []
    else
      assert s == [s[0]] + s[1..];
      Insert(s[0], SortDescending(s[1..]))
  }

  lemma {:induction false} CountAboveInsert<T>(x: Scored<T>, s: seq<Scored<T>>, t: real)
    ensures CountAbove(Insert(x, s), t) == CountAbove(s, t) + (if x.score > t then 1 else 0)
  {
    if |s| == 0 || x.score >= s[0].score {
      assert ([x] + s)[1..] == s;
    } else {
      var rest := Insert(x, s[1..]);
      assert ([s[0]] + rest)[1..] == rest;
      CountAboveInsert(x, s[1..], t);
    }
  }

  /** Sorting does not change how many candidates beat a given score. */
  lemma {:induction false} CountAboveSort<T>(s: seq<Scored<T>>, t: real)
    ensures CountAbove(SortDescending(s), t) == CountAbove(s, t)
  {
    if |s| > 0 {
      CountAboveSort(s[1..], t);
      CountAboveInsert(s[0], SortDescending(s[1..]), t);
    }
  }

  lemma {:induction false} CountAboveNone<T>(s: seq<Scored<T>>, t: real)
    requires forall i :: 0 <= i < |s| ==> s[i].score <= t
    ensures CountAbove(s, t) == 0
  {
    if |s| > 0 {
      CountAboveNone(s[1..], t);
    }
  }

  /** In a descending sequence, at most k entries outscore the entry at index k. */
  lemma {:induction false} RankBound<T>(s: seq<Scored<T>>, k: nat)
    requires Descending(s)
    requires k < |s|
    ensures CountAbove(s, s[k].score) <= k
  {
    if k == 0 {
      CountAboveNone(s[1..], s[0].score);
    } else {
      assert s[1..][k - 1] == s[k];
      RankBound(s[1..], k - 1);
    }
  }
}

=== FILE: swipe.dfy ===
/** The vertical-gesture recognizer of js/swipe.js (class SwipeHandler) as a
    pure transition function over (handler state, event). Touch and mouse
    events arrive as plain y positions; DOM effects become outcome values. */
module Swipe {
  import opened Wrappers

  /** Identity of a presented element. */
  type ElementId = nat

  /** Identity of a callback the presentation layer supplies. */
  type CallbackId = nat

  /** Commit threshold: an end beyond it in either direction is a swipe. */
  const SwipeThreshold: real := 100.0

  /** Hint threshold of the advisory indicator while moving. */
  const HintThreshold: real := 50.0

  /** `currentElement`, `onSwipeUp`, `onSwipeDown`, `startY`, `currentY`
      and `isSwiping`; `None` for `null`/`undefined`. */
  datatype Handler = Handler(
    element: Option<ElementId>,
    onSwipeUp: Option<CallbackId>,
    onSwipeDown: Option<CallbackId>,
    startY: real,
    currentY: real,
    isSwiping: bool)

  /** A touch or mouse event reduced to its kind and vertical position;
      `Bind` is a call of `initElement`. The end event's position is carried
      only to show that it is not read. */
  datatype Event =
    | Bind(target: ElementId, up: Option<CallbackId>, down: Option<CallbackId>)
    | Start(y: real)
    | Move(y: real)
    | End(y: real)

  /** Which indicator a move shows. */
  datatype Hint = LikeHint | DislikeHint | NoHint

  /** How an end classifies the gesture. `Snapback` clears the offset. */
  datatype Gesture = SwipedUp | SwipedDown | Snapback

  datatype Outcome =
    | Ignored
    | Rebound
    | Began
    | Moved(delta: real, hint: Hint)
    | Ended(gesture: Gesture, fired: Option<CallbackId>)

  datatype Transition = Transition(handler: Handler, outcome: Outcome)

  /** The constructor's state: no element, both positions 0, not swiping. */
  function Initial(): (h: Handler)
    ensures h.element.None? && !h.isSwiping
  {
    Handler(None, None, None, 0.0, 0.0, false)
  }

  /** `initElement`: rebinds element and callbacks; the gesture state stays. */
  function InitElement(h: Handler, e: ElementId, up: Option<CallbackId>, down: Option<CallbackId>): (t: Transition)
    ensures t.handler.element == Some(e)
    ensures t.handler.onSwipeUp == up && t.handler.onSwipeDown == down
    ensures t.handler.startY == h.startY && t.handler.currentY == h.currentY
    ensures t.handler.isSwiping == h.isSwiping
  {
    Transition(h.(element := Some(e), onSwipeUp := up, onSwipeDown := down), Rebound)
  }

  /** `handleTouchStart`. */
  function TouchStart(h: Handler, y: real): (t: Transition)
    ensures h.element.None? ==> t == Transition(h, Ignored)
    ensures h.element.Some? ==>
              && t.outcome == Began
              && t.handler.startY == y && t.handler.currentY == y && t.handler.isSwiping
              && t.handler.element == h.element
              && t.handler.onSwipeUp == h.onSwipeUp && t.handler.onSwipeDown == h.onSwipeDown
  {
    if h.element.None? then Transition(h, Ignored)
    else Transition(h.(startY := y, currentY := y, isSwiping := true), Began)
  }

  /** The indicator for a displacement. */
  function HintFor(delta: real): Hint {
    if delta < -HintThreshold then LikeHint
    else if delta > HintThreshold then DislikeHint
    else NoHint
  }

  /** `handleTouchMove`. */
  function TouchMove(h: Handler, y: real): (t: Transition)
    ensures !h.isSwiping || h.element.None? ==> t == Transition(h, Ignored)
    ensures h.isSwiping && h.element.Some? ==>
              && t.handler == h.(currentY := y)
              && t.outcome.Moved?
              && t.outcome.delta == y - h.startY
              && (t.outcome.hint == LikeHint <==> y - h.startY < -50.0)
              && (t.outcome.hint == DislikeHint <==> y - h.startY > 50.0)
              && (t.outcome.hint == NoHint <==> -50.0 <= y - h.startY <= 50.0)
  {
    if !h.isSwiping || h.element.None? then Transition(h, Ignored)
    else
      var delta := y - h.startY;
      Transition(h.(currentY := y), Moved(delta, HintFor(delta)))
  }

  /** The commit classification of a final displacement. */
  function Classify(delta: real): Gesture {
    if delta < -SwipeThreshold then SwipedUp
    else if delta > SwipeThreshold then SwipedDown
    else Snapback
  }

  /** `handleTouchEnd`: classifies the displacement between the start and the
      last recorded move, fires at most the matching callback, and stops
      tracking. */
  function TouchEnd(h: Handler): (t: Transition)
    ensures !h.isSwiping || h.element.None? ==> t == Transition(h, Ignored)
    ensures h.isSwiping && h.element.Some? ==>
              && t.handler == h.(isSwiping := false)
              && t.outcome.Ended?
              && (t.outcome.gesture == SwipedUp <==> h.currentY - h.startY < -100.0)
              && (t.outcome.gesture == SwipedDown <==> h.currentY - h.startY > 100.0)
              && (t.outcome.gesture == SwipedUp ==> t.outcome.fired == h.onSwipeUp)
              && (t.outcome.gesture == SwipedDown ==> t.outcome.fired == h.onSwipeDown)
              && (t.outcome.gesture == Snapback ==> t.outcome.fired.None?)
  {
    if !h.isSwiping || h.element.None? then Transition(h, Ignored)
    else
      var gesture := Classify(h.currentY - h.startY);
      var fired := match gesture
        case SwipedUp => h.onSwipeUp
        case SwipedDown => h.onSwipeDown
        case Snapback => None;
      Transition(h.(isSwiping := false), Ended(gesture, fired))
  }

  /** One event. */
  function Step(h: Handler, e: Event): Transition {
    match e
    case Bind(target, up, down) => InitElement(h, target, up, down)
    case Start(y) => TouchStart(h, y)
    case Move(y) => TouchMove(h, y)
    case End(_) => TouchEnd(h)
  }

  /** Exactly the commit boundary is not a swipe: the thresholds are strict. */
  lemma BoundaryIsSnapback(h: Handler)
    requires h.isSwiping && h.element.Some?
    requires h.currentY - h.startY == -100.0 || h.currentY - h.startY == 100.0
    ensures TouchEnd(h).outcome == Ended(Snapback, None)
  {
  }

  /** An end reads the last recorded position, never its own. */
  lemma EndIgnoresPosition(h: Handler, y1: real, y2: real)
    ensures Step(h, End(y1)) == Step(h, End(y2))
  {
  }

  /** A start followed directly by an end snaps back without a callback. */
  lemma StartThenEndSnapsBack(h: Handler, y: real, y': real)
    requires h.element.Some?
    ensures Step(Step(h, Start(y)).handler, End(y')).outcome == Ended(Snapback, None)
  {
  }

  /** A second end without a new start does nothing. */
  lemma RepeatedEndIgnored(h: Handler, y: real, y': real)
    ensures var t := Step(h, End(y));
            Step(t.handler, End(y')) == Transition(t.handler, Ignored)
  {
  }

  /** The hint threshold is tighter than the commit threshold, so a commit
      always agrees with the hint shown by the move that preceded it. */
  lemma HintAnnouncesCommit(h: Handler, y: real, y': real)
    requires h.isSwiping && h.element.Some?
    ensures var moved := Step(h, Move(y));
            var ended := Step(moved.handler, End(y'));
            && (ended.outcome.gesture == SwipedUp ==> moved.outcome.hint == LikeHint)
            && (ended.outcome.gesture == SwipedDown ==> moved.outcome.hint == DislikeHint)
  {
  }

  /** The outcomes of a run of events and the final state. */
  datatype Trace = Trace(handler: Handler, outcomes: seq<Outcome>)

  function Run(h: Handler, events: seq<Event>): (r: Trace)
    ensures |r.outcomes| == |events|
    decreases |events|
  {
    if |events| == 0 then Trace(h, [])
    else
      var t := Step(h, events[0]);
      var rest := Run(t.handler, events[1..]);
      Trace(rest.handler, [t.outcome] + rest.outcomes)
  }

  /** Number of starts that began tracking. */
  function Begins(outcomes: seq<Outcome>): nat {
    if |outcomes| == 0 then 0
    else (if outcomes[0] == Began then 1 else 0) + Begins(outcomes[1..])
  }

  /** Number of ends that committed to a swipe (and so fired its callback,
      if one was bound). */
  function Commits(outcomes: seq<Outcome>): nat {
    if |outcomes| == 0 then 0
    else (if outcomes[0].Ended? && outcomes[0].gesture != Snapback then 1 else 0) + Commits(outcomes[1..])
  }

  /** At most one swipe is committed per start: over any run, the commits do
      not exceed the starts (plus one if a gesture was already in progress). */
  lemma {:induction false} OneCommitPerStart(h: Handler, events: seq<Event>)
    ensures var r := Run(h, events);
            Commits(r.outcomes) + (if r.handler.isSwiping then 1 else 0)
              <= Begins(r.outcomes) + (if h.isSwiping then 1 else 0)
    decreases |events|
  {
    if |events| > 0 {
      var t := Step(h, events[0]);
      var rest := Run(t.handler, events[1..]);
      OneCommitPerStart(t.handler, events[1..]);
      assert ([t.outcome] + rest.outcomes)[1..] == rest.outcomes;
    }
  }
}

=== FILE: wrappers.dfy ===
/** The optional-value type shared by the color engine and the gesture
    recognizer: JavaScript's `null`, `undefined` and `-1`-for-not-found
    become `None`. */
module Wrappers {

  datatype Option<+T> = None | Some(value: T)
}
